=== FILE: README.md ===
# Guard checkpoint engine, modelled in Dafny

This project models the checkpoint engine of Guard, the class `Guard` in
`guard/guard.py`. The model covers the following:

- how a checkpoint gets its identity: `save_meta` stamps `id`, `timestamp` and
  `date_time` onto the caller's record and writes `meta/<id>.json`;
- the summary `{"last": …, "best": …}`: `get_summary`, `write_summary`,
  the in-memory cache, and the left fold `update_summary`, where `last` is
  always overwritten and `best` is replaced when it is missing, when it lacks
  the best key, or when `best_compare(new, old)` holds;
- the retention rule `cleanup`. Modes are tested by substring. The keep list
  holds the best id and/or the last id. Every other listed metadata file is
  deleted, together with that id's dump files;
- the artifact remover `remove`, which deletes dump files by bare prefix
  match;
- `checkpoint`, which runs save, serialize, update and cleanup in that order;
- the read paths `get_best`, `get_last`, `deserialize_best` and
  `deserialize_last`. For the last two, the model computes the id whose dump
  path goes to `deserialize`.

The directory is an immutable value `Layout.Dir`. Its parts are:

- the metadata records keyed by id;
- the set of file names under `dump/`;
- `summary.json`, when it exists.

A `Guards.Guard` pairs the directory with the configuration and the cached
summary. Every operation is a pure function from one state to the next, and
it reports the Python exception it would raise as a value. Some inputs come
from outside the engine and are passed in as parameters:

- the uuid;
- the clock reading and its local rendering;
- the outcome of the serializer: the dump files it creates, or `None` when it
  raises.

Modules, leaves first:

- `Json`: JSON values, records, `Option`, `Result`, and the exceptions.
- `Text`: Python's `startswith`, substring `in`, and the root part of
  `os.path.splitext`.
- `Summaries`: the summary, one update step, and the fold over many steps.
- `Layout`: the directory and `remove`.
- `Retention`: the keep list, `cleanup` as a function, and `cleanup`'s loop as
  a method proved equal to that function.
- `Guards`: the `Guard` state machine, `checkpoint`, and runs of checkpoints.

Behaviour of the code that the model keeps as written:

- `checkpoint` returns nothing, not even the serializer's result
  (guard/guard.py:97-102).
- `cleanup` takes the summary as a parameter and does not read summary.json
  again (guard/guard.py:64).
- Modes are tested as substrings, so `"small"` names `"all"`
  (guard/guard.py:66-71).
- `remove` deletes by bare prefix, with no separator required after the id,
  so removing id `1` also deletes `12.pth` (guard/guard.py:112-114).
- Both `cleanup` and `remove` pass names through `os.path.splitext`, so a
  dotted id such as `v1.2` makes `remove` delete the files of `v1`
  (guard/guard.py:76 and 111).
- After a `KeyError` in `update_summary`, an object that is already cached
  keeps the `last` that was just assigned, while `summary.json` does not
  (guard/guard.py:48-57). `Guards.KeyErrorLeavesCacheAhead` exhibits this.

## Model

| member | source | states |
|---|---|---|
| Text.ContainsIffOccurs | guard/guard.py:66-71 | the mode test `word in mode` holds exactly when `word` occurs at some position of the mode string |
| Text.SplitExtRoot | guard/guard.py:111 | the root of `os.path.splitext` is a prefix of the name; when it differs from the name, a dot follows it, no later dot exists, and the root is not all dots; when it equals the name, only dots precede every dot of the name |
| Text.SplitExtRootJson | guard/guard.py:76 | the id read back from the file name `<id>.json` is `id` itself whenever `id` has a character other than a dot |
| Summaries.Update | guard/guard.py:47-62 | `last` becomes the new record; `best` is unchanged without a best key; it becomes the new record when missing or lacking the key; otherwise it is replaced iff the comparator prefers the new metric; a new record without the key while `best` has it raises `KeyError(best_key)` |
| Summaries.FoldLast | guard/guard.py:50 | after any successful sequence of updates, `last` is the final record |
| Summaries.FoldWithoutKeyKeepsBest | guard/guard.py:52 | with no best key, updates never fail and leave `best` exactly as it was |
| Summaries.FoldBestUnbeaten | guard/guard.py:52-59 | with a strict-order comparator, every record carrying the key, and an initial best that is absent or carries the key (and at least one record when it is absent), the fold succeeds and the folded `best` carries the key, is the initial best or one of the records, only ever improves on the initial best, and no record seen has a better metric |
| Summaries.BestIsRunningMinimum | guard/guard.py:52-59 | with the default `x < y` and integer metrics, the best metric after the fold is the minimum of the metrics seen and, for a resumed experiment whose summary already has a best with the key, of that best's metric; a best lacking the key takes no part |
| Summaries.BestNeverIncreases | guard/guard.py:56-59 | with the default comparator, one update sets the best metric to the smaller of the old best and the new metric |
| Summaries.WorseRecordKeepsBest | guard/test_guard.py:55-63 | best loss 2 with a new loss 3 keeps best 2 and makes the new record last |
| Summaries.RunningMinimumExample | guard/guard.py:53-59 | for metrics 5, 3, 8, 1, 9 the best metric ends at 1, although 1 appears mid-sequence |
| Summaries.ResumedBestSurvives | guard/guard.py:53-59 | a resumed experiment with best loss 0 keeps that best through a later loss of 5 |
| Layout.Remove | guard/guard.py:110-114 | `remove` only deletes dump files; a file is deleted when it starts with the stripped name (unless it is hidden and that name is empty) and survives when it does not start with it; when the stripped name is empty, every hidden file survives |
| Layout.RemoveDeletesPrefixed | guard/guard.py:110-114 | for a plain id, a dump file is deleted exactly when its name starts with the id |
| Layout.RemoveSharedPrefix | guard/test_guard.py:98-108 | removing id "1" deletes 1.txt and 1.csv, and also 12.pth of id "12", and keeps 2.pth |
| Layout.RemoveStripsExtension | guard/guard.py:111-112 | removing "v1.2" deletes the files of "v1" |
| Retention.KeepList | guard/guard.py:68-72 | the keep list has at most two entries and spares a string id exactly when the mode names "best" and it is best's id, or the mode names "last" and it is last's id |
| Retention.SubstringModeSurprise | guard/guard.py:66 | the mode "small" names "all" under the substring test |
| Retention.MetaIdOf | guard/guard.py:74-76 | a listed metadata file name yields back its own id |
| Retention.Cleanup | guard/guard.py:64-79 | under a mode naming "all" nothing changes; otherwise a metadata record survives iff it is unlisted or its id is kept, and a dump file survives iff the prefix glob of no deleted id lists it; survivors are unchanged; no file is created; the summary is untouched |
| Retention.CleanupIdempotent | guard/guard.py:64-79 | a second cleanup with the same summary changes nothing |
| Retention.CleanupKeepsExactly | guard/guard.py:68-79 | for a mode not naming "all" and plain ids, the surviving ids are the original ids that the keep list holds, and a dump file survives iff no removed id is a prefix of its name |
| Retention.LastModeKeepsOne | guard/guard.py:71-79 | under a mode naming "last" but neither "best" nor "all", with plain ids and the last checkpoint's id on disk, exactly that checkpoint's metadata survives |
| Retention.CleanupRemovesUnkept | guard/test_guard.py:65-70 | with files 1.json and 2.json and last id "1", only 2.json is deleted |
| Retention.CleanupRemovesUnkeptLastBest | guard/test_guard.py:36 | the unit test's mode "last,best" gives that same outcome |
| Retention.CleanupPrefixCollision | guard/guard.py:77-79 | pruning id "1" also deletes 12.pth of the kept id "12", while the metadata of "12" survives |
| Retention.CleanupLoop | guard/guard.py:64-79 | `cleanup` as written, returning at once under "all" and otherwise looping over the listed metadata files in any order, ends in the same state as the cleanup rule |
| Retention.PruneLoop | guard/guard.py:74-79 | the loop over the listed metadata files, visited in any order, deletes exactly the doomed ids and their prefix-globbed dump files |
| Guards.Open | guard/guard.py:15-26 | a fresh instance caches nothing (`_summary` is None), so its cache agrees with the file |
| Guards.DefaultsNeverPrune | guard/guard.py:14-15 | the default mode "all" is named by the mode test, so cleanup under the constructor defaults returns the directory unchanged |
| Guards.GetSummary | guard/guard.py:33-39 | the cached summary when caching is on and one is cached; while the cache agrees with the file, the persisted summary or `{}` |
| Guards.WriteSummary | guard/guard.py:41-45 | after a write, summary.json holds the summary; with caching on the cache holds it too, with caching off the cache is left alone; the cache agrees, and the next read returns exactly what was written |
| Guards.UpdateSummary | guard/guard.py:47-62 | returns the folded summary it writes and that a later read returns, and with caching on caches it (otherwise the cache is left alone); on `KeyError` the directory is unchanged, an empty cache stays empty, and a cached summary keeps its new `last` |
| Guards.KeyErrorLeavesCacheAhead | guard/guard.py:48-57 | a failing update with a cached summary leaves the cache reporting a `last` that summary.json lacks |
| Guards.Stamp | guard/guard.py:86-90 | the stored record has the caller's keys plus `id`, `timestamp` and `date_time`, holds the given id and time, and keeps every other caller field |
| Guards.SaveMeta | guard/guard.py:81-95 | returns the id, writes the stamped record at `meta/<id>.json`, and changes no other file |
| Guards.Checkpoint | guard/guard.py:97-102 | on either exception the metadata file stays, orphaned: the stamped record is added, the dump gains only what the serializer created, and summary.json is untouched; a serializer failure also leaves the cache alone; a `KeyError` happens only when the fields lack the best key; on success `last` is the stamped record, summary.json exists, the cache holds it when caching is on and is otherwise left alone, and the new id survives under modes naming "last" or "all" |
| Guards.CheckpointUnderAllKeepsEverything | guard/guard.py:66-67 | under "all", a successful checkpoint adds its record and artifacts and deletes nothing |
| Guards.CheckpointUnderLastKeepsOnlyNew | guard/guard.py:97-102 | under "last" alone, with plain ids, only the new checkpoint's metadata remains |
| Guards.CheckpointUnderLastBestKeepsTwo | guard/guard.py:68-79 | under "last,best", with plain ids, exactly the new id and the best id (when it is on disk) remain |
| Guards.BestAfterCheckpoint | guard/guard.py:52-59 | after a checkpoint, `best` is the new record when the previous best is missing, lacks the key, or loses; otherwise it is the previous best |
| Guards.GetBest | guard/guard.py:116-118 | while the cache agrees, the persisted summary's `best`, or None |
| Guards.GetLast | guard/guard.py:125-127 | while the cache agrees, the persisted summary's `last`, or None |
| Guards.DumpIdOf | guard/guard.py:121-122 | a missing entry raises `KeyError` naming the entry, a missing id raises `KeyError("id")`, and a string id is returned |
| Guards.DeserializeBest | guard/guard.py:120-123 | a best with a string id hands exactly that id to `deserialize`, and only then does it succeed; a missing best raises `KeyError("best")`, a best without an id raises `KeyError("id")` |
| Guards.DeserializeLast | guard/guard.py:129-132 | a last with a string id hands exactly that id to `deserialize`, and only then does it succeed; a missing last raises `KeyError("last")`, a last without an id raises `KeyError("id")` |
| Guards.DeserializeLastAfterCheckpoint | guard/guard.py:129-132 | after a successful checkpoint, `deserialize_last` reads the new id's dump path |
| Guards.CheckpointUnderAllSucceeds | guard/guard.py:97-102 | under "all", with a working serializer and the best key present, a checkpoint raises nothing, inserts its record and makes it `last` |
| Guards.AllModeKeepsHistory | guard/guard.py:97-102 | under "all", for calls whose serializers succeed, whose fields carry the best key, and whose ids are fresh and pairwise distinct, the run raises nothing, writes every stamped record, deletes no metadata, and leaves the final record as `last` |
| Guards.AllModeKeepsArtifacts | guard/guard.py:97-102 | under "all", for calls whose serializers succeed, whose fields carry the best key, and whose ids are fresh and pairwise distinct, the run keeps every dump file and adds exactly the artifacts its serializers create |
| Guards.AllModeCountsCheckpoints | guard/guard.py:92-93 | under "all", N checkpoints whose serializers succeed, whose fields carry the best key, and whose ids are fresh and pairwise distinct leave exactly N more metadata files |

## Left out

- File and JSON I/O are not modelled: `open`, `json.load` and `json.dump`, and directory creation in the constructor. A malformed or non-object summary.json, and its failure modes, are left out too. The directory is a value.
- Summary keys other than `last` and `best` are not modelled. Neither are entries that are not objects.
- `uuid.uuid4`, `time.time` and `time.strftime` are not modelled: the id, an integer clock reading and its rendering are parameters. Timestamps are integers, not floats.
- The payloads of `serialize` and `deserialize` are not modelled, and neither is `guard/torchGuard.py`. The serializer's effect is a parameter: the dump files it creates, or a raised `SerializationError`. Files a failing serializer leaves behind are not modelled.
- Summaries.DefaultLess: Python's `<` on strings and on mixed types is not modelled; the default comparator holds only between integer metrics. Metrics are integers, not floats.
- Layout.Remove: glob metacharacters in ids (`*`, `?`, `[`) and ids containing `/` are not modelled. The operation takes the base name, not the joined path.
- `has_history` only raises `NotImplementedError` (guard/guard.py:134-135), so it is not modelled.
- `write_summary` truncates summary.json and rewrites it in place (guard/guard.py:44-45); a crash in the middle of that write, which would leave a partial file, is not modelled: a write is one step.
- The constructor defaults (mode "all", no best key, `x < y`, caching on) are the constant `Guards.Defaults`; a Guard built with other settings passes them in the `Config`.
- The shared mutable default `data={}` of `checkpoint` is not modelled. Each call's record is a fresh value.
- Concurrency and other processes writing the directory are not modelled.

=== FILE: guards.dfy ===
/** The `Guard` class (guard/guard.py): a functional state machine over its
    configuration, the experiment directory and the cached summary. The id,
    the clock reading and the outcome of payload serialization are inputs. */
module Guards {
  import opened Json
  import opened Summaries
  import opened Layout
  import opened Retention

  /** The constructor's settings: retention mode, best key, the comparator
      `best_compare(new, old)`, and whether the summary is cached. */
  datatype Config = Config(mode: string, bestKey: Option<string>,
                           better: (Value, Value) -> bool, cache: bool)

  /** The constructor's defaults: mode "all", no best key, `x < y`, and
      caching on. */
  const Defaults: Config := Config("all", None, DefaultLess, true)

  /** The default mode names "all", so a Guard built with the defaults
      never prunes a checkpoint. */
  lemma DefaultsNeverPrune(s: Summary, d: Dir)
    ensures ModeHas(Defaults.mode, "all")
    ensures Cleanup(Defaults.mode, s, d) == d
  {
    assert Defaults.mode == "all";
  }

  /** A Guard instance: settings, directory, and `_summary` (the cached
      summary, None until a write with caching on). */
  datatype Guard = Guard(cfg: Config, dir: Dir, cached: Option<Summary>)

  /** The result of `update_summary`: the new state, and the summary it
      returns or the exception it raises. */
  datatype Updated = Updated(guard: Guard, result: Result<Summary>)

  /** The result of `save_meta`: the new state, the id it returns, and the
      record it stamped (the caller's `data`, updated in place). */
  datatype Saved = Saved(guard: Guard, id: string, record: Record)

  /** The result of `checkpoint`, which returns nothing: the new state and
      the exception it raised, if any. */
  datatype Ran = Ran(guard: Guard, raised: Option<Error>)

  /** The keys `save_meta` writes over. */
  const Reserved: set<string> := {"id", "timestamp", "date_time"}

  /** Whenever caching is on and a summary is cached, summary.json holds
      that same summary. */
  predicate Coherent(g: Guard) {
    g.cfg.cache && g.cached.Some? ==> g.dir.summary == g.cached
  }

  /** `Guard(...)` on an existing directory: nothing is cached yet. */
  function Open(cfg: Config, dir: Dir): (g: Guard)
    ensures g.cached.None?
    ensures Coherent(g)
    ensures g.cfg == cfg && g.dir == dir
  {
    Guard(cfg, dir, None)
  }

  /** `get_summary`: the cached summary when caching is on and one is
      cached, else summary.json, else `{}`. */
  function GetSummary(g: Guard): (s: Summary)
    ensures g.cfg.cache && g.cached.Some? ==> s == g.cached.value
    ensures Coherent(g) ==> s == g.dir.summary.GetOr(Empty)
  {
    if g.cached.Some? && g.cfg.cache then g.cached.value
    else if g.dir.summary.Some? then g.dir.summary.value
    else Empty
  }

  /** `write_summary`: overwrite summary.json, and cache the summary when
      caching is on. A later read returns exactly what was written. */
  function WriteSummary(g: Guard, s: Summary): (g': Guard)
    ensures g'.dir == g.dir.(summary := Some(s))
    ensures g'.cfg == g.cfg
    ensures g.cfg.cache ==> g'.cached == Some(s)
    ensures !g.cfg.cache ==> g'.cached == g.cached
    ensures Coherent(g')
    ensures GetSummary(g') == s
  {
    Guard(g.cfg, g.dir.(summary := Some(s)), if g.cfg.cache then Some(s) else g.cached)
  }

  /** `update_summary(data)`: fold `data` into the current summary and write
      the result. When the comparison raises a KeyError, nothing is written,
      but the `last` assignment already made to a cached summary object
      sticks. */
  function UpdateSummary(g: Guard, data: Record): (u: Updated)
    ensures u.result == Update(g.cfg.bestKey, g.cfg.better, GetSummary(g), data)
    ensures u.guard.cfg == g.cfg
    ensures u.result.Ok? ==> u.guard.dir == g.dir.(summary := Some(u.result.value))
    ensures u.result.Ok? ==> GetSummary(u.guard) == u.result.value && Coherent(u.guard)
    ensures u.result.Err? ==> u.guard.dir == g.dir
    ensures u.result.Ok? ==> u.guard.cached == if g.cfg.cache then Some(u.result.value) else g.cached
    ensures u.result.Err? ==>
              u.guard.cached == if g.cfg.cache && g.cached.Some?
                                then Some(GetSummary(g).(last := Some(data)))
                                else g.cached
    ensures u.result.Err? ==>
              GetSummary(u.guard) == if g.cfg.cache && g.cached.Some?
                                     then GetSummary(g).(last := Some(data))
                                     else GetSummary(g)
  {
    var s := GetSummary(g);
    match Update(g.cfg.bestKey, g.cfg.better, s, data)
    case Ok(s') => Updated(WriteSummary(g, s'), Ok(s'))
    case Err(e) =>
      var cached := if g.cfg.cache && g.cached.Some? then Some(s.(last := Some(data))) else g.cached;
      Updated(g.(cached := cached), Err(e))
  }

  /** The record `save_meta` stores: the caller's fields with `id`,
      `timestamp` and `date_time` written over them. */
  function Stamp(data: Record, id: string, now: int, dateTime: string): (r: Record)
    ensures r.Keys == data.Keys + Reserved
    ensures r["id"] == Str(id) && r["timestamp"] == Int(now) && r["date_time"] == Str(dateTime)
    ensures forall k :: k in data && k !in Reserved ==> r[k] == data[k]
  {
    data + map["id" := Str(id), "timestamp" := Int(now), "date_time" := Str(dateTime)]
  }

  /** `save_meta(data)`, with the fresh uuid `id`, the clock reading `now`
      and its local rendering `dateTime` supplied: stamp the record, write
      it to `meta/<id>.json`, return the id. */
  function SaveMeta(g: Guard, data: Record, id: string, now: int, dateTime: string): (sv: Saved)
    ensures sv.id == id && sv.record == Stamp(data, id, now, dateTime)
    ensures sv.guard.dir.meta.Keys == g.dir.meta.Keys + {id}
    ensures sv.guard.dir.meta[id] == sv.record
    ensures forall x :: x in g.dir.meta && x != id ==> sv.guard.dir.meta[x] == g.dir.meta[x]
    ensures sv.guard.dir.dump == g.dir.dump && sv.guard.dir.summary == g.dir.summary
    ensures sv.guard.cfg == g.cfg && sv.guard.cached == g.cached
  {
    var record := Stamp(data, id, now, dateTime);
    Saved(g.(dir := g.dir.(meta := g.dir.meta[id := record])), id, record)
  }

  /** `checkpoint(data, ...)`: save the metadata, run the serializer on
      `dump/<id>` (`artifacts` is the set of dump files it creates, or None
      when it raises), update the summary, then clean up with the summary
      just written. */
  function Checkpoint(g: Guard, data: Record, id: string, now: int, dateTime: string,
                      artifacts: Option<set<string>>): (c: Ran)
    ensures c.guard.cfg == g.cfg
    ensures id in c.guard.dir.meta ==> c.guard.dir.meta[id] == Stamp(data, id, now, dateTime)
    ensures c.raised == Some(SerializationError) <==> artifacts.None?
    ensures c.raised.Some? ==> id in c.guard.dir.meta
    ensures c.raised.Some? ==>
              && c.guard.dir.meta == g.dir.meta[id := Stamp(data, id, now, dateTime)]
              && c.guard.dir.dump == g.dir.dump + artifacts.GetOr({})
              && c.guard.dir.summary == g.dir.summary
    ensures artifacts.None? ==> c.guard.cached == g.cached
    ensures c.raised.Some? && artifacts.Some? ==>
              g.cfg.bestKey.Some? && c.raised == Some(KeyError(g.cfg.bestKey.value)) &&
              g.cfg.bestKey.value !in data && g.cfg.bestKey.value !in Reserved
    ensures c.raised.None? ==>
              && GetSummary(c.guard).last == Some(Stamp(data, id, now, dateTime))
              && Coherent(c.guard)
              && c.guard.dir.summary.Some?
              && c.guard.cached == (if g.cfg.cache then c.guard.dir.summary else g.cached)
              && c.guard.dir.dump <= g.dir.dump + artifacts.value
    ensures c.raised.None? && (ModeHas(g.cfg.mode, "last") || ModeHas(g.cfg.mode, "all")) ==>
              id in c.guard.dir.meta
  {
    var sv := SaveMeta(g, data, id, now, dateTime);
    if artifacts.None? then Ran(sv.guard, Some(SerializationError))
    else
      var g1 := sv.guard.(dir := sv.guard.dir.(dump := sv.guard.dir.dump + artifacts.value));
      var u := UpdateSummary(g1, sv.record);
      if u.result.Err? then Ran(u.guard, Some(u.result.error))
      else
        var s := u.result.value;
        assert ModeHas(g.cfg.mode, "last") ==> Kept(KeepList(g.cfg.mode, s), MetaIdOf(id)) || !Listed(id);
        Ran(u.guard.(dir := Cleanup(g.cfg.mode, s, u.guard.dir)), None)
  }

  /** `get_best`: the summary's `best` entry, or None. */
  function GetBest(g: Guard): (r: Option<Record>)
    ensures Coherent(g) ==> r == if g.dir.summary.Some? then g.dir.summary.value.best else None
  {
    GetSummary(g).best
  }

  /** `get_last`: the summary's `last` entry, or None. */
  function GetLast(g: Guard): (r: Option<Record>)
    ensures Coherent(g) ==> r == if g.dir.summary.Some? then g.dir.summary.value.last else None
  {
    GetSummary(g).last
  }

  /** `summary[entry]["id"]` joined onto the dump directory: the id whose
      dump path is handed to `deserialize`, or the exception the lookup or
      the path join raises. */
  function DumpIdOf(entryName: string, entry: Option<Record>): (r: Result<string>)
    ensures r.Ok? <==> exists x :: IdOf(entry) == Some(Str(x))
    ensures r.Ok? ==> IdOf(entry) == Some(Str(r.value))
    ensures entry.None? ==> r == Err(KeyError(entryName))
    ensures entry.Some? && "id" !in entry.value ==> r == Err(KeyError("id"))
  {
    if entry.None? then Err(KeyError(entryName))
    else if "id" !in entry.value then Err(KeyError("id"))
    else match entry.value["id"]
      case Str(x) => Ok(x)
      case _ => Err(TypeError)
  }

  /** `deserialize_best`: the id of the best checkpoint's dump path. */
  function DeserializeBest(g: Guard): (r: Result<string>)
    ensures r.Ok? ==> IdOf(GetBest(g)) == Some(Str(r.value))
    ensures forall x :: IdOf(GetBest(g)) == Some(Str(x)) ==> r == Ok(x)
    ensures GetBest(g).None? ==> r == Err(KeyError("best"))
    ensures GetBest(g).Some? && "id" !in GetBest(g).value ==> r == Err(KeyError("id"))
  {
    DumpIdOf("best", GetSummary(g).best)
  }

  /** `deserialize_last`: the id of the last checkpoint's dump path. */
  function DeserializeLast(g: Guard): (r: Result<string>)
    ensures r.Ok? ==> IdOf(GetLast(g)) == Some(Str(r.value))
    ensures forall x :: IdOf(GetLast(g)) == Some(Str(x)) ==> r == Ok(x)
    ensures GetLast(g).None? ==> r == Err(KeyError("last"))
    ensures GetLast(g).Some? && "id" !in GetLast(g).value ==> r == Err(KeyError("id"))
  {
    DumpIdOf("last", GetSummary(g).last)
  }

  /** Under a mode naming "all", a successful checkpoint adds its record and
      its artifacts and deletes nothing. */
  lemma CheckpointUnderAllKeepsEverything(g: Guard, data: Record, id: string, now: int,
                                          dateTime: string, artifacts: set<string>)
    requires ModeHas(g.cfg.mode, "all")
    ensures var c := Checkpoint(g, data, id, now, dateTime, Some(artifacts));
            c.raised.None? ==>
              && c.guard.dir.meta == g.dir.meta[id := Stamp(data, id, now, dateTime)]
              && c.guard.dir.dump == g.dir.dump + artifacts
  {
  }

  /** Under a mode naming "last" but neither "best" nor "all", with plain
      ids, a successful checkpoint leaves exactly its own metadata. */
  lemma CheckpointUnderLastKeepsOnlyNew(g: Guard, data: Record, id: string, now: int,
                                        dateTime: string, artifacts: Option<set<string>>)
    requires ModeHas(g.cfg.mode, "last") && !ModeHas(g.cfg.mode, "best") && !ModeHas(g.cfg.mode, "all")
    requires forall x :: x in g.dir.meta ==> PlainId(x)
    requires PlainId(id)
    ensures var c := Checkpoint(g, data, id, now, dateTime, artifacts);
            c.raised.None? ==> c.guard.dir.meta.Keys == {id}
  {
  }

  /** Under a mode naming "last" and "best" but not "all", with plain ids, a
      successful checkpoint leaves its own metadata and that of the best
      checkpoint, when that one is still on disk, and nothing else. */
  lemma CheckpointUnderLastBestKeepsTwo(g: Guard, data: Record, id: string, now: int,
                                        dateTime: string, artifacts: Option<set<string>>)
    requires ModeHas(g.cfg.mode, "last") && ModeHas(g.cfg.mode, "best") && !ModeHas(g.cfg.mode, "all")
    requires forall x :: x in g.dir.meta ==> PlainId(x)
    requires PlainId(id)
    ensures var c := Checkpoint(g, data, id, now, dateTime, artifacts);
            c.raised.None? ==>
              forall x :: x in c.guard.dir.meta <==>
                x == id || (x in g.dir.meta && IdOf(GetBest(c.guard)) == Some(Str(x)))
  {
  }

  /** After a successful checkpoint the last checkpoint's dump path is the
      new id's. */
  lemma DeserializeLastAfterCheckpoint(g: Guard, data: Record, id: string, now: int,
                                       dateTime: string, artifacts: Option<set<string>>)
    ensures var c := Checkpoint(g, data, id, now, dateTime, artifacts);
            c.raised.None? ==> DeserializeLast(c.guard) == Ok(id)
  {
  }

  /** After a successful checkpoint with a best key configured, `best` is the
      new record or the previous `best`, and it is the new record exactly
      when the previous one is missing, lacks the key, or loses to it. */
  lemma BestAfterCheckpoint(g: Guard, data: Record, id: string, now: int,
                            dateTime: string, artifacts: Option<set<string>>)
    requires g.cfg.bestKey.Some?
    ensures var c := Checkpoint(g, data, id, now, dateTime, artifacts);
            var k := g.cfg.bestKey.value;
            var oldBest := GetBest(g);
            var rec := Stamp(data, id, now, dateTime);
            c.raised.None? ==>
              GetBest(c.guard) ==
                if oldBest.None? || k !in oldBest.value || g.cfg.better(rec[k], oldBest.value[k])
                then Some(rec) else oldBest
  {
  }

  /** With caching on and a summary cached, a KeyError in `update_summary`
      leaves the cache claiming a `last` that summary.json does not hold. */
  lemma KeyErrorLeavesCacheAhead()
    ensures var s := Summary(None, Some(map["loss" := Int(2)]));
            var g := Guard(Config("last", Some("loss"), DefaultLess, true),
                           Dir(map[], {}, Some(s)), Some(s));
            var u := UpdateSummary(g, map["a" := Int(1)]);
            && Coherent(g)
            && u.result == Err(KeyError("loss"))
            && u.guard.dir.summary == Some(s)
            && GetLast(u.guard) == Some(map["a" := Int(1)])
            && !Coherent(u.guard)
  {
  }

  /** One `checkpoint` call's inputs: the caller's fields, the generated id,
      the clock reading and its rendering, and the serializer's outcome. */
  datatype Call = Call(data: Record, id: string, now: int, dateTime: string,
                       artifacts: Option<set<string>>)

  /** Successive `checkpoint` calls, stopping at the first exception. */
  function Run(g: Guard, calls: seq<Call>): Ran
    decreases |calls|
  {
    if calls == [] then Ran(g, None)
    else
      var c := Checkpoint(g, calls[0].data, calls[0].id, calls[0].now,
                          calls[0].dateTime, calls[0].artifacts);
      if c.raised.Some? then c else Run(c.guard, calls[1..])
  }

  /** The ids of a run of calls. */
  function CallIds(calls: seq<Call>): set<string>
    decreases |calls|
  {
    if calls == [] then {} else {calls[0].id} + CallIds(calls[1..])
  }

  /** Under a mode naming "all", a checkpoint whose serializer succeeds and
      whose fields carry the best key raises nothing, adds its record and
      makes it `last`. */
  lemma CheckpointUnderAllSucceeds(g: Guard, z: Call)
    requires ModeHas(g.cfg.mode, "all")
    requires z.artifacts.Some?
    requires g.cfg.bestKey.Some? ==> g.cfg.bestKey.value in z.data
    ensures var c := Checkpoint(g, z.data, z.id, z.now, z.dateTime, z.artifacts);
            && c.raised.None?
            && c.guard.cfg == g.cfg
            && c.guard.dir.meta == g.dir.meta[z.id := Stamp(z.data, z.id, z.now, z.dateTime)]
            && c.guard.dir.dump == g.dir.dump + z.artifacts.value
            && GetLast(c.guard) == Some(Stamp(z.data, z.id, z.now, z.dateTime))
  {
  }

  /** Calls every one of which succeeds under a mode naming "all": the
      serializer succeeds, the fields carry the best key, and the ids are
      fresh and pairwise distinct. */
  ghost predicate Succeeding(g: Guard, calls: seq<Call>) {
    && (forall i :: 0 <= i < |calls| ==>
          && calls[i].artifacts.Some?
          && calls[i].id !in g.dir.meta
          && (g.cfg.bestKey.Some? ==> g.cfg.bestKey.value in calls[i].data))
    && (forall i, j :: 0 <= i < j < |calls| ==> calls[i].id != calls[j].id)
  }

  /** After the first of a run of succeeding calls, the rest still
      succeed. */
  lemma SucceedingTail(g: Guard, calls: seq<Call>, g': Guard)
    requires Succeeding(g, calls) && calls != []
    requires g'.cfg == g.cfg && g'.dir.meta.Keys == g.dir.meta.Keys + {calls[0].id}
    ensures Succeeding(g', calls[1..])
  {
  }

  /** The metadata map after writing the stamped record of every call, in
      order: the reference for a run that prunes nothing. */
  function Inserted(meta: map<string, Record>, calls: seq<Call>): map<string, Record>
    decreases |calls|
  {
    if calls == [] then meta
    else
      var z := calls[0];
      Inserted(meta[z.id := Stamp(z.data, z.id, z.now, z.dateTime)], calls[1..])
  }

  /** The dump files every call's serializer creates. */
  function Artifacts(calls: seq<Call>): set<string>
    decreases |calls|
  {
    if calls == [] then {} else calls[0].artifacts.GetOr({}) + Artifacts(calls[1..])
  }

  /** Under a mode naming "all", a run of succeeding calls raises nothing,
      writes every stamped record and deletes no metadata, and `last` holds
      the record of the final call. */
  lemma {:induction false} AllModeKeepsHistory(g: Guard, calls: seq<Call>)
    requires ModeHas(g.cfg.mode, "all")
    requires Succeeding(g, calls)
    ensures Run(g, calls).raised.None?
    ensures Run(g, calls).guard.dir.meta == Inserted(g.dir.meta, calls)
    ensures calls != [] ==>
              var z := calls[|calls| - 1];
              GetLast(Run(g, calls).guard) == Some(Stamp(z.data, z.id, z.now, z.dateTime))
    decreases |calls|
  {
    if calls != [] {
      var z := calls[0];
      var c := Checkpoint(g, z.data, z.id, z.now, z.dateTime, z.artifacts);
      CheckpointUnderAllSucceeds(g, z);
      SucceedingTail(g, calls, c.guard);
      AllModeKeepsHistory(c.guard, calls[1..]);
      if |calls| > 1 {
        assert calls[|calls| - 1] == calls[1..][|calls| - 2];
      }
    }
  }

  /** Under a mode naming "all", a run of succeeding calls adds every
      artifact its serializers create and deletes no dump file. */
  lemma {:induction false} AllModeKeepsArtifacts(g: Guard, calls: seq<Call>)
    requires ModeHas(g.cfg.mode, "all")
    requires Succeeding(g, calls)
    ensures Run(g, calls).guard.dir.dump == g.dir.dump + Artifacts(calls)
    decreases |calls|
  {
    if calls != [] {
      var z := calls[0];
      var c := Checkpoint(g, z.data, z.id, z.now, z.dateTime, z.artifacts);
      CheckpointUnderAllSucceeds(g, z);
      SucceedingTail(g, calls, c.guard);
      AllModeKeepsArtifacts(c.guard, calls[1..]);
    }
  }

  /** Inserting fresh distinct ids adds exactly those ids. */
  lemma {:induction false} InsertedKeys(meta: map<string, Record>, calls: seq<Call>)
    ensures Inserted(meta, calls).Keys == meta.Keys + CallIds(calls)
    decreases |calls|
  {
    if calls != [] {
      var z := calls[0];
      InsertedKeys(meta[z.id := Stamp(z.data, z.id, z.now, z.dateTime)], calls[1..]);
    }
  }

  /** The ids of a run are exactly the ids of its calls. */
  lemma {:induction false} CallIdsMembers(calls: seq<Call>)
    ensures forall x :: x in CallIds(calls) <==> exists i :: 0 <= i < |calls| && calls[i].id == x
    decreases |calls|
  {
    if calls != [] {
      CallIdsMembers(calls[1..]);
      forall x | x in CallIds(calls)
        ensures exists i :: 0 <= i < |calls| && calls[i].id == x
      {
        if x != calls[0].id {
          assert x in CallIds(calls[1..]);
          var i :| 0 <= i < |calls[1..]| && calls[1..][i].id == x;
          assert calls[i + 1].id == x;
        }
      }
      forall x | exists i :: 0 <= i < |calls| && calls[i].id == x
        ensures x in CallIds(calls)
      {
        var i :| 0 <= i < |calls| && calls[i].id == x;
        if i > 0 {
          assert calls[1..][i - 1].id == x;
        }
      }
    }
  }

  /** Distinct ids: a run of N calls has N ids. */
  lemma {:induction false} CallIdsCount(calls: seq<Call>)
    requires forall i, j :: 0 <= i < j < |calls| ==> calls[i].id != calls[j].id
    ensures |CallIds(calls)| == |calls|
    decreases |calls|
  {
    if calls != [] {
      var rest := calls[1..];
      forall i, j | 0 <= i < j < |rest|
        ensures rest[i].id != rest[j].id
      {
        assert rest[i] == calls[i + 1] && rest[j] == calls[j + 1];
      }
      CallIdsCount(rest);
      assert calls[0].id !in CallIds(rest) by {
        forall i | 0 <= i < |rest|
          ensures rest[i].id != calls[0].id
        {
          assert rest[i] == calls[i + 1];
        }
        CallIdsMembers(rest);
      }
    }
  }

  /** Under a mode naming "all", N successful checkpoints with fresh distinct
      ids leave exactly N more metadata files. */
  lemma AllModeCountsCheckpoints(g: Guard, calls: seq<Call>)
    requires ModeHas(g.cfg.mode, "all")
    requires Succeeding(g, calls)
    ensures |Run(g, calls).guard.dir.meta| == |g.dir.meta| + |calls|
  {
    AllModeKeepsHistory(g, calls);
    InsertedKeys(g.dir.meta, calls);
    CallIdsCount(calls);
    var ids := CallIds(calls);
    CallIdsMembers(calls);
    assert g.dir.meta.Keys !! ids;
    assert |g.dir.meta.Keys + ids| == |g.dir.meta.Keys| + |ids|;
    assert |Run(g, calls).guard.dir.meta| == |Run(g, calls).guard.dir.meta.Keys|;
  }
}

=== FILE: json.dfy ===
/** The JSON-compatible values the checkpoint engine stores in metadata
    records and in the summary, and the exceptions its operations raise. */
module Json {

  /** A present-or-absent value (Python's `None` for a missing entry). */
  datatype Option<+T> = None | Some(value: T) {

    /** The value, or `default` when absent (`dict.get(key, default)`). */
    function GetOr(default: T): T {
      match this
      case Some(v) => v
      case None => default
    }
  }

  /** A JSON scalar. Metrics and timestamps are integers here; `Null` is
      JSON's `null` (Python's `None` stored as a value). */
  datatype Value = Int(i: int) | Str(s: string) | Null

  /** One JSON object, such as a checkpoint's metadata record. */
  type Record = map<string, Value>

  /** The Python exceptions the modelled operations can raise. */
  datatype Error =
    | KeyError(key: string)   // indexing a dict at a missing key
    | TypeError               // joining a path with a non-string id
    | SerializationError      // the payload serializer raised

  /** The value of an operation, or the exception it raised. */
  datatype Result<+T> = Ok(value: T) | Err(error: Error)
}

=== FILE: layout.dfy ===
/** The experiment directory `<root>/<experiment>/` and the artifact remover
    `Guard.remove` (guard/guard.py, lines 110-114). */
module Layout {
  import opened Json
  import opened Text
  import opened Summaries

  /** The directory's contents: one record per `meta/<id>.json`, keyed by id;
      the file names under `dump/`; and `summary.json` when it exists. */
  datatype Dir = Dir(meta: map<string, Record>, dump: set<string>, summary: Option<Summary>)

  /** An id of the shape uuid4 produces, as far as path handling cares: not
      empty and without a dot. */
  predicate PlainId(id: string) {
    |id| > 0 && forall j :: 0 <= j < |id| ==> id[j] != '.'
  }

  /** `glob("dump/" + root + "*")` lists `f`: a bare prefix match, where a
      pattern starting with the wildcard skips names beginning with a dot. */
  predicate GlobMatchesPrefix(root: string, f: string) {
    IsPrefix(root, f) && (root == "" ==> f == "" || f[0] != '.')
  }

  /** `remove(dump/<name>)`: strip the extension from the base name, then
      delete every dump file the prefix glob lists. Files outside the prefix
      survive, and every file inside it goes, except the hidden ones when the
      stripped name is empty. */
  function Remove(dump: set<string>, name: string): (r: set<string>)
    ensures r <= dump
    ensures forall f :: f in dump && !IsPrefix(SplitExtRoot(name), f) ==> f in r
    ensures forall f :: f in dump - r ==> IsPrefix(SplitExtRoot(name), f)
    ensures forall f ::
              f in dump && IsPrefix(SplitExtRoot(name), f)
              && (SplitExtRoot(name) == "" ==> f != "" && f[0] != '.')
              ==> f !in r
    ensures SplitExtRoot(name) == "" ==>
              forall f :: f in dump && f != "" && f[0] == '.' ==> f in r
  {
    set f | f in dump && !GlobMatchesPrefix(SplitExtRoot(name), f)
  }

  /** For a plain id, `remove` deletes exactly the dump files whose name
      starts with the id, and keeps every other file. */
  lemma RemoveDeletesPrefixed(dump: set<string>, id: string)
    requires PlainId(id)
    ensures forall f :: f in dump ==> (f in Remove(dump, id) <==> !IsPrefix(id, f))
  {
  }

  /** Bare prefix matching: removing id "1" also deletes "12.pth", which
      belongs to id "12", alongside "1.txt" and "1.csv". */
  lemma RemoveSharedPrefix()
    ensures Remove({"1.txt", "1.csv", "12.pth", "2.pth"}, "1") == {"2.pth"}
  {
  }

  /** A dotted name loses its extension first: removing "v1.2" deletes the
      files of "v1" ("v1.pth") instead of the files of "v1.2". */
  lemma RemoveStripsExtension()
    ensures Remove({"v1.pth", "v2.pth"}, "v1.2") == {"v2.pth"}
  {
    var name := "v1.2";
    assert LastIndexOf(name, '.') == 2;
    assert name[..2][0] == 'v';
    assert SplitExtRoot(name) == "v1";
    assert IsPrefix("v1", "v1.pth");
    assert "v2.pth"[..2][1] != "v1"[1];
  }
}

=== FILE: retention.dfy ===
/** The retention rule `Guard.cleanup` (guard/guard.py, lines 64-79): which
    checkpoints a mode keeps, and the pruning of every other one. */
module Retention {
  import opened Json
  import opened Text
  import opened Summaries
  import opened Layout

  /** The mode test `word in self._mode`: a substring check, so "last,best"
      names both and "small" names "all". */
  predicate ModeHas(mode: string, word: string) {
    Contains(mode, word)
  }

  /** `summary.get(entry, {}).get("id", None)`: the entry's id, or None. */
  function IdOf(entry: Option<Record>): Option<Value> {
    if entry.Some? && "id" in entry.value then Some(entry.value["id"]) else None
  }

  /** The test `id not in keep` fails for `id`: the list holds that string. */
  predicate Kept(keep: seq<Option<Value>>, id: string) {
    Some(Str(id)) in keep
  }

  /** The `keep` list: the best id when the mode names "best", then the last
      id when it names "last". An absent entry contributes None, which
      matches no file. */
  function KeepList(mode: string, s: Summary): (keep: seq<Option<Value>>)
    ensures |keep| <= 2
    ensures forall id :: Kept(keep, id) <==>
              || (ModeHas(mode, "best") && IdOf(s.best) == Some(Str(id)))
              || (ModeHas(mode, "last") && IdOf(s.last) == Some(Str(id)))
  {
    (if ModeHas(mode, "best") then [IdOf(s.best)] else [])
    + (if ModeHas(mode, "last") then [IdOf(s.last)] else [])
  }

  /** The glob of `meta` for the pattern `*.json` lists `<id>.json` exactly
      when `id` is not empty and does not start with a dot: the wildcard
      skips hidden names, and ".json" itself is one. */
  predicate Listed(id: string) {
    |id| > 0 && id[0] != '.'
  }

  /** The id cleanup reads back from the file name `<id>.json`. */
  function MetaIdOf(id: string): (r: string)
    ensures Listed(id) ==> r == id
  {
    assert Listed(id) ==> SplitExtRoot(id + ".json") == id by {
      if Listed(id) {
        assert !AllDots(id);
        SplitExtRootJson(id);
      }
    }
    SplitExtRoot(id + ".json")
  }

  /** The listed metadata ids the keep list does not spare. */
  function Doomed(keep: seq<Option<Value>>, meta: map<string, Record>): set<string> {
    set id | id in meta && Listed(id) && !Kept(keep, MetaIdOf(id))
  }

  /** The dump files left after `remove` ran for every doomed id. */
  function Prune(dump: set<string>, doomed: set<string>): set<string> {
    set f | f in dump && forall id :: id in doomed ==> !GlobMatchesPrefix(SplitExtRoot(MetaIdOf(id)), f)
  }

  /** The directory once every doomed id lost its metadata file and its
      dump files. */
  function Pruned(keep: seq<Option<Value>>, d: Dir): Dir {
    var doomed := Doomed(keep, d.meta);
    Dir(d.meta - doomed, Prune(d.dump, doomed), d.summary)
  }

  /** `cleanup(summary)`: nothing when the mode names "all"; otherwise every
      listed metadata file whose id the keep list does not hold is deleted,
      together with that id's dump files: a dump file survives exactly when
      the prefix glob of no deleted id lists it. */
  function Cleanup(mode: string, s: Summary, d: Dir): (r: Dir)
    ensures ModeHas(mode, "all") ==> r == d
    ensures r.summary == d.summary
    ensures r.meta.Keys <= d.meta.Keys && r.dump <= d.dump
    ensures forall id :: id in r.meta ==> r.meta[id] == d.meta[id]
    ensures !ModeHas(mode, "all") ==>
              forall id :: id in d.meta ==>
                (id in r.meta <==> !Listed(id) || Kept(KeepList(mode, s), id))
    ensures forall f :: f in d.dump ==>
              (f in r.dump <==>
                 forall id :: id in d.meta && id !in r.meta ==> !GlobMatchesPrefix(SplitExtRoot(id), f))
  {
    if ModeHas(mode, "all") then d else Pruned(KeepList(mode, s), d)
  }

  /** Running cleanup a second time with the same summary changes nothing. */
  lemma CleanupIdempotent(mode: string, s: Summary, d: Dir)
    ensures Cleanup(mode, s, Cleanup(mode, s, d)) == Cleanup(mode, s, d)
  {
  }

  /** With plain ids and a mode not naming "all", the surviving ids are the
      original ids the keep list holds, and a dump file survives exactly when
      no removed id is a prefix of its name. */
  lemma CleanupKeepsExactly(mode: string, s: Summary, d: Dir)
    requires !ModeHas(mode, "all")
    requires forall id :: id in d.meta ==> PlainId(id)
    ensures var r := Cleanup(mode, s, d);
            && (forall id :: id in r.meta <==> id in d.meta && Kept(KeepList(mode, s), id))
            && (forall f :: f in r.dump <==>
                  f in d.dump && forall id :: id in d.meta && id !in r.meta ==> !IsPrefix(id, f))
  {
  }

  /** Mode "last" alone, all ids plain and the summary's last id among them:
      exactly that one checkpoint survives. */
  lemma LastModeKeepsOne(mode: string, s: Summary, d: Dir, id: string)
    requires ModeHas(mode, "last") && !ModeHas(mode, "best") && !ModeHas(mode, "all")
    requires forall x :: x in d.meta ==> PlainId(x)
    requires IdOf(s.last) == Some(Str(id)) && id in d.meta
    ensures Cleanup(mode, s, d).meta.Keys == {id}
  {
  }

  /** The mode "last,best" names "last" and "best" but not "all". */
  lemma LastBestFlags()
    ensures ModeHas("last,best", "last") && ModeHas("last,best", "best")
    ensures !ModeHas("last,best", "all")
  {
    ContainsAt("last,best", "last", 0);
    ContainsAt("last,best", "best", 5);
    NotContainsByPairs("last,best", "all");
  }

  /** The mode "last" names "last" only. */
  lemma LastFlags()
    ensures ModeHas("last", "last") && !ModeHas("last", "best") && !ModeHas("last", "all")
  {
    ContainsAt("last", "last", 0);
    NotContainsByPairs("last", "best");
    NotContainsByPairs("last", "all");
  }

  /** The substring test lets a mode such as "small" switch pruning off. */
  lemma SubstringModeSurprise()
    ensures ModeHas("small", "all")
  {
  }

  /** The unit-test scenario: with a mode naming "last" and not "all",
      files 1.json and 2.json, and a summary whose last id is "1" and which
      has no best, only 2.json goes. */
  lemma CleanupRemovesUnkept(mode: string, r1: Record, r2: Record)
    requires ModeHas(mode, "last") && !ModeHas(mode, "all")
    ensures var d := Dir(map["1" := r1, "2" := r2], {}, None);
            Cleanup(mode, Summary(Some(map["id" := Str("1")]), None), d).meta.Keys == {"1"}
  {
  }

  /** The mode of the unit test, "last,best", meets that scenario. */
  lemma CleanupRemovesUnkeptLastBest(r1: Record, r2: Record)
    ensures var d := Dir(map["1" := r1, "2" := r2], {}, None);
            Cleanup("last,best", Summary(Some(map["id" := Str("1")]), None), d).meta.Keys == {"1"}
  {
    LastBestFlags();
    CleanupRemovesUnkept("last,best", r1, r2);
  }

  /** Bare prefix deletion reaches a kept checkpoint: under mode "last" with
      last id "12", pruning id "1" also deletes "12.pth", while the metadata
      of "12" survives. */
  lemma CleanupPrefixCollision(r1: Record, r12: Record)
    ensures var r := Cleanup("last", Summary(Some(map["id" := Str("12")]), None),
                             Dir(map["1" := r1, "12" := r12], {"1.pth", "12.pth"}, None));
            "12" in r.meta && "1" !in r.meta && r.dump == {}
  {
    var mode := "last";
    LastFlags();
    assert PlainId("1") && PlainId("12");
    var s := Summary(Some(map["id" := Str("12")]), None);
    var d := Dir(map["1" := r1, "12" := r12], {"1.pth", "12.pth"}, None);
    CleanupKeepsExactly(mode, s, d);
    var r := Cleanup(mode, s, d);
    assert "1" !in r.meta;
    assert IsPrefix("1", "12.pth") && IsPrefix("1", "1.pth");
  }

  /** Running `remove` for one more doomed id prunes by the enlarged set. */
  lemma PruneOneMore(dump: set<string>, gone: set<string>, id: string)
    ensures Remove(Prune(dump, gone), MetaIdOf(id)) == Prune(dump, gone + {id})
  {
  }

  /** Deleting one more metadata file deletes by the enlarged set. */
  lemma MetaOneMore(meta: map<string, Record>, gone: set<string>, id: string)
    ensures (meta - gone) - {id} == meta - (gone + {id})
  {
  }

  /** The ids the loop has deleted, once every listed file was visited, are
      the doomed ones. */
  lemma GoneIsDoomed(keep: seq<Option<Value>>, meta: map<string, Record>, gone: set<string>)
    requires forall x :: x in gone <==> x in meta && Listed(x) && !Kept(keep, MetaIdOf(x))
    ensures gone == Doomed(keep, meta)
  {
  }

  /** The loop of `cleanup` as written: walk the listed metadata files in
      any order, and for each one whose id the keep list does not hold
      delete it and call `remove` on its dump path. */
  method PruneLoop(keep: seq<Option<Value>>, d: Dir) returns (r: Dir)
    ensures r == Pruned(keep, d)
  {
    var files := set id | id in d.meta && Listed(id);
    ghost var listed := files;
    ghost var gone: set<string> := {};
    var meta := d.meta;
    var dump := d.dump;
    while files != {}
      invariant files <= listed && gone <= listed
      invariant forall x :: x in gone <==> x in listed && x !in files && !Kept(keep, MetaIdOf(x))
      invariant meta == d.meta - gone
      invariant dump == Prune(d.dump, gone)
      decreases |files|
    {
      var id :| id in files;
      var mid := MetaIdOf(id);
      if !Kept(keep, mid) {
        MetaOneMore(d.meta, gone, id);
        meta := meta - {id};
        PruneOneMore(d.dump, gone, id);
        dump := Remove(dump, mid);
        gone := gone + {id};
      }
      files := files - {id};
    }
    GoneIsDoomed(keep, d.meta, gone);
    r := Dir(meta, dump, d.summary);
  }

  /** `cleanup` as written: return at once under a mode naming "all",
      otherwise build the keep list and run the loop; this ends in the
      state the cleanup rule describes. */
  method CleanupLoop(mode: string, s: Summary, d: Dir) returns (r: Dir)
    ensures r == Cleanup(mode, s, d)
  {
    if ModeHas(mode, "all") {
      return d;
    }
    var keep := KeepList(mode, s);
    r := PruneLoop(keep, d);
  }
}

=== FILE: summaries.dfy ===
/** The summary record `{"last": …, "best": …}` and the left fold
    `update_summary` performs on it (guard/guard.py, lines 47-62). */
module Summaries {
  import opened Json

  /** The contents of summary.json; either entry may be absent. */
  datatype Summary = Summary(last: Option<Record>, best: Option<Record>)

  /** The summary before any checkpoint: `{}`. */
  const Empty: Summary := Summary(None, None)

  /** The default comparator `lambda x, y: x < y`, on integer metrics
      (lower is better). */
  predicate DefaultLess(x: Value, y: Value) {
    x.Int? && y.Int? && x.i < y.i
  }

  /** One `update_summary` step on a summary value. `last` always becomes
      `data`; with a best key configured, `best` becomes `data` when it is
      missing, when it lacks the key, or when `better(new, old)` holds. The
      new record must then carry the key, else `data[best_key]` raises. */
  function Update(bestKey: Option<string>, better: (Value, Value) -> bool,
                  s: Summary, data: Record): (r: Result<Summary>)
    ensures r.Ok? ==> r.value.last == Some(data)
    ensures bestKey.None? ==> r.Ok? && r.value.best == s.best
    ensures bestKey.Some? && (s.best.None? || bestKey.value !in s.best.value) ==>
              r.Ok? && r.value.best == Some(data)
    ensures bestKey.Some? && s.best.Some? && bestKey.value in s.best.value ==>
              if bestKey.value !in data then r == Err(KeyError(bestKey.value))
              else r.Ok? &&
                   r.value.best == (if better(data[bestKey.value], s.best.value[bestKey.value])
                                    then Some(data) else s.best)
  {
    var s1 := s.(last := Some(data));
    if bestKey.None? then Ok(s1)
    else
      var k := bestKey.value;
      if s.best.None? || k !in s.best.value then Ok(s1.(best := Some(data)))
      else if k !in data then Err(KeyError(k))
      else if better(data[k], s.best.value[k]) then Ok(s1.(best := Some(data)))
      else Ok(s1)
  }

  /** Repeated `update_summary` calls, oldest record first, stopping at the
      first exception. */
  function Fold(bestKey: Option<string>, better: (Value, Value) -> bool,
                s: Summary, rs: seq<Record>): Result<Summary>
    decreases |rs|
  {
    if rs == [] then Ok(s)
    else match Update(bestKey, better, s, rs[0])
      case Err(e) => Err(e)
      case Ok(s1) => Fold(bestKey, better, s1, rs[1..])
  }

  /** After a successful fold over a non-empty sequence, `last` is the final
      record. */
  lemma {:induction false} FoldLast(bestKey: Option<string>, better: (Value, Value) -> bool,
                                    s: Summary, rs: seq<Record>)
    requires rs != []
    requires Fold(bestKey, better, s, rs).Ok?
    ensures Fold(bestKey, better, s, rs).value.last == Some(rs[|rs| - 1])
    decreases |rs|
  {
    var s1 := Update(bestKey, better, s, rs[0]).value;
    if |rs| > 1 {
      FoldLast(bestKey, better, s1, rs[1..]);
    }
  }

  /** Without a best key, no update fails and `best` is left exactly as it
      was. */
  lemma {:induction false} FoldWithoutKeyKeepsBest(better: (Value, Value) -> bool,
                                                   s: Summary, rs: seq<Record>)
    ensures Fold(None, better, s, rs).Ok?
    ensures Fold(None, better, s, rs).value.best == s.best
    decreases |rs|
  {
    if rs != [] {
      FoldWithoutKeyKeepsBest(better, Update(None, better, s, rs[0]).value, rs[1..]);
    }
  }

  /** The comparator is a strict order: irreflexive and transitive. */
  ghost predicate StrictOrder(better: (Value, Value) -> bool) {
    && (forall x :: !better(x, x))
    && (forall x, y, z :: better(x, y) && better(y, z) ==> better(x, z))
  }

  /** Every record carries the best key. */
  ghost predicate AllHaveKey(rs: seq<Record>, k: string) {
    forall i :: 0 <= i < |rs| ==> k in rs[i]
  }

  /** The fold with a strict-order comparator keeps a `best` that no record
      seen beats: it is the initial `best` or one of the records, it carries
      the key, it only ever improves on the initial `best`, and no record's
      metric (nor the initial best's) is better. */
  lemma {:induction false} FoldBestUnbeaten(k: string, better: (Value, Value) -> bool,
                                            s: Summary, rs: seq<Record>)
    requires StrictOrder(better)
    requires AllHaveKey(rs, k)
    requires s.best.None? || k in s.best.value
    requires s.best.None? ==> rs != []
    ensures Fold(Some(k), better, s, rs).Ok?
    ensures var b := Fold(Some(k), better, s, rs).value.best;
            && b.Some?
            && k in b.value
            && (b == s.best || b.value in rs)
            && (b == s.best || s.best.None? || better(b.value[k], s.best.value[k]))
            && (s.best.Some? ==> !better(s.best.value[k], b.value[k]))
            && forall i :: 0 <= i < |rs| ==> !better(rs[i][k], b.value[k])
    decreases |rs|
  {
    if rs != [] {
      var s1 := Update(Some(k), better, s, rs[0]).value;
      assert s1.best == s.best || s1.best == Some(rs[0]);
      assert s1.best == s.best || s.best.None? || better(rs[0][k], s.best.value[k]);
      FoldBestUnbeaten(k, better, s1, rs[1..]);
      var b := Fold(Some(k), better, s1, rs[1..]).value.best;
      assert Fold(Some(k), better, s, rs).value.best == b;
      assert b == s1.best || better(b.value[k], s1.best.value[k]);
      forall i | 0 <= i < |rs|
        ensures !better(rs[i][k], b.value[k])
      {
        if i > 0 {
          assert rs[i] == rs[1..][i - 1];
        }
      }
      if b != s1.best {
        assert b.value in rs[1..];
      }
    }
  }

  /** The smallest element of a non-empty sequence. */
  function MinOf(xs: seq<int>): (m: int)
    requires xs != []
    ensures m in xs
    ensures forall i :: 0 <= i < |xs| ==> m <= xs[i]
  {
    if |xs| == 1 then xs[0]
    else
      var m := MinOf(xs[1..]);
      assert forall i :: 1 <= i < |xs| ==> xs[i] == xs[1..][i - 1];
      if xs[0] <= m then xs[0] else m
  }

  /** The metric of the summary's `best` under key `k`, as a sequence of at
      most one integer: empty when there is no best, the best lacks the key,
      or its metric is not an integer. */
  function InitialMetric(k: string, s: Summary): (ms: seq<int>)
    ensures |ms| <= 1
  {
    if s.best.Some? && k in s.best.value && s.best.value[k].Int? then [s.best.value[k].i] else []
  }

  /** The running minimum for a summary whose best, when present, carries
      the key with an integer metric. */
  lemma BestIsMinimumOfKeyed(k: string, s: Summary, rs: seq<Record>, ms: seq<int>)
    requires s.best.None? || (k in s.best.value && s.best.value[k].Int?)
    requires rs != [] || s.best.Some?
    requires |ms| == |rs|
    requires forall i :: 0 <= i < |rs| ==> k in rs[i] && rs[i][k] == Int(ms[i])
    ensures Fold(Some(k), DefaultLess, s, rs).Ok?
    ensures Fold(Some(k), DefaultLess, s, rs).value.best.Some?
    ensures k in Fold(Some(k), DefaultLess, s, rs).value.best.value
    ensures Fold(Some(k), DefaultLess, s, rs).value.best.value[k] == Int(MinOf(InitialMetric(k, s) + ms))
  {
    FoldBestUnbeaten(k, DefaultLess, s, rs);
    var b := Fold(Some(k), DefaultLess, s, rs).value.best.value;
    var init := InitialMetric(k, s);
    var xs := init + ms;
    var x: int;
    if s.best.Some? && b == s.best.value {
      x := s.best.value[k].i;
      assert xs[0] == x;
    } else {
      var j :| 0 <= j < |rs| && rs[j] == b;
      x := ms[j];
      assert xs[|init| + j] == x;
    }
    assert b[k] == Int(x);
    forall i | 0 <= i < |xs|
      ensures x <= xs[i]
    {
      if i < |init| {
        assert !DefaultLess(s.best.value[k], b[k]);
      } else {
        assert !DefaultLess(rs[i - |init|][k], b[k]);
      }
    }
    var m := MinOf(xs);
    var i :| 0 <= i < |xs| && xs[i] == m;
    assert x <= xs[i];
  }

  /** With the default comparator and integer metrics, the best metric after
      the fold is the minimum of the initial best's metric, when the summary
      already had a best with the key, and all metrics seen: a running
      minimum, also for a resumed experiment. A best lacking the key is
      replaced by the first record and so takes no part. */
  lemma BestIsRunningMinimum(k: string, s: Summary, rs: seq<Record>, ms: seq<int>)
    requires s.best.Some? && k in s.best.value ==> s.best.value[k].Int?
    requires rs != [] || (s.best.Some? && k in s.best.value)
    requires |ms| == |rs|
    requires forall i :: 0 <= i < |rs| ==> k in rs[i] && rs[i][k] == Int(ms[i])
    ensures Fold(Some(k), DefaultLess, s, rs).Ok?
    ensures Fold(Some(k), DefaultLess, s, rs).value.best.Some?
    ensures k in Fold(Some(k), DefaultLess, s, rs).value.best.value
    ensures Fold(Some(k), DefaultLess, s, rs).value.best.value[k] == Int(MinOf(InitialMetric(k, s) + ms))
  {
    if s.best.Some? && k !in s.best.value {
      var s0 := s.(best := None);
      assert Update(Some(k), DefaultLess, s, rs[0]) == Update(Some(k), DefaultLess, s0, rs[0]);
      assert Fold(Some(k), DefaultLess, s, rs) == Fold(Some(k), DefaultLess, s0, rs);
      BestIsMinimumOfKeyed(k, s0, rs, ms);
    } else {
      BestIsMinimumOfKeyed(k, s, rs, ms);
    }
  }

  /** A resumed experiment whose best loss is 0 keeps it through a later,
      worse loss 5: the minimum includes the initial best. */
  lemma ResumedBestSurvives(r: Record)
    requires "loss" in r && r["loss"] == Int(5)
    ensures var s := Summary(None, Some(map["loss" := Int(0)]));
            var f := Fold(Some("loss"), DefaultLess, s, [r]);
            f.Ok? && f.value.best == s.best
  {
    var s := Summary(None, Some(map["loss" := Int(0)]));
    assert Fold(Some("loss"), DefaultLess, s, [r]) == Update(Some("loss"), DefaultLess, s, r);
  }

  /** One update with the default comparator never raises the best metric:
      it becomes the smaller of the old best and the new metric. */
  lemma BestNeverIncreases(k: string, s: Summary, data: Record, oldM: int, newM: int)
    requires s.best.Some? && k in s.best.value && s.best.value[k] == Int(oldM)
    requires k in data && data[k] == Int(newM)
    ensures Update(Some(k), DefaultLess, s, data).Ok?
    ensures var b := Update(Some(k), DefaultLess, s, data).value.best;
            b.Some? && k in b.value &&
            b.value[k] == Int(if newM < oldM then newM else oldM)
  {
  }

  /** The unit-test scenario: best loss 2, new loss 3 keeps best 2 and makes
      the new record last. */
  lemma WorseRecordKeepsBest()
    ensures var r := Update(Some("loss"), DefaultLess,
                            Summary(None, Some(map["loss" := Int(2)])),
                            map["loss" := Int(3)]);
            r.Ok? && r.value.best.value["loss"] == Int(2) &&
            r.value.last.value["loss"] == Int(3)
  {
  }

  /** The sequence 5, 3, 8, 1, 9: the minimum reached mid-sequence survives
      the non-improving values after it. */
  lemma RunningMinimumExample(k: string, rs: seq<Record>)
    requires |rs| == 5
    requires forall i :: 0 <= i < 5 ==> k in rs[i]
    requires rs[0][k] == Int(5) && rs[1][k] == Int(3) && rs[2][k] == Int(8)
    requires rs[3][k] == Int(1) && rs[4][k] == Int(9)
    ensures Fold(Some(k), DefaultLess, Empty, rs).Ok?
    ensures Fold(Some(k), DefaultLess, Empty, rs).value.best.Some?
    ensures k in Fold(Some(k), DefaultLess, Empty, rs).value.best.value
    ensures Fold(Some(k), DefaultLess, Empty, rs).value.best.value[k] == Int(1)
  {
    var ms := [5, 3, 8, 1, 9];
    BestIsRunningMinimum(k, Empty, rs, ms);
    assert InitialMetric(k, Empty) + ms == ms;
    MinOfExample();
  }

  /** The minimum of 5, 3, 8, 1, 9 is 1. */
  lemma MinOfExample()
    ensures MinOf([5, 3, 8, 1, 9]) == 1
  {
    var ms := [5, 3, 8, 1, 9];
    assert MinOf(ms) <= ms[3];
  }
}

=== FILE: text.dfy ===
/** The string operations the engine relies on: Python's `startswith`,
    substring `in`, and the root part of `os.path.splitext`. */
module Text {

  /** `p` is a prefix of `s`: `s.startswith(p)`. */
  predicate IsPrefix(p: string, s: string) {
    |p| <= |s| && s[..|p|] == p
  }

  /** `p` occurs in `s` starting at position `i`. */
  predicate OccursAt(p: string, s: string, i: int) {
    0 <= i && i + |p| <= |s| && s[i..i + |p|] == p
  }

  /** Python's `p in s` on strings, scanning start positions left to right. */
  predicate Contains(s: string, p: string)
    decreases |s|
  {
    IsPrefix(p, s) || (|s| > 0 && Contains(s[1..], p))
  }

  /** The scan finds `p` exactly when `p` occurs somewhere in `s`. */
  lemma {:induction false} ContainsIffOccurs(s: string, p: string)
    ensures Contains(s, p) <==> exists i :: OccursAt(p, s, i)
    decreases |s|
  {
    if IsPrefix(p, s) {
      assert OccursAt(p, s, 0);
    } else if |s| > 0 {
      ContainsIffOccurs(s[1..], p);
      if i :| OccursAt(p, s, i) {
        assert i != 0;
        assert s[1..][i - 1..i - 1 + |p|] == s[i..i + |p|];
        assert OccursAt(p, s[1..], i - 1);
      }
      if Contains(s[1..], p) {
        var j :| OccursAt(p, s[1..], j);
        assert s[1..][j..j + |p|] == s[j + 1..j + 1 + |p|];
        assert OccursAt(p, s, j + 1);
      }
    }
  }

  /** A witnessed occurrence makes `p in s` true. */
  lemma ContainsAt(s: string, p: string, i: int)
    requires OccursAt(p, s, i)
    ensures Contains(s, p)
  {
    ContainsIffOccurs(s, p);
  }

  /** No two adjacent characters of `s` spell the first two of `p`, so `p`
      does not occur in `s`. */
  lemma {:induction false} NotContainsByPairs(s: string, p: string)
    requires |p| >= 2
    requires forall i :: 0 <= i < |s| - 1 ==> s[i] != p[0] || s[i + 1] != p[1]
    ensures !Contains(s, p)
    decreases |s|
  {
    if |s| > 0 {
      if |s| >= |p| {
        assert s[..|p|][0] == s[0] && s[..|p|][1] == s[1];
      }
      forall i | 0 <= i < |s[1..]| - 1
        ensures s[1..][i] != p[0] || s[1..][i + 1] != p[1]
      {
        assert s[1..][i] == s[i + 1];
      }
      NotContainsByPairs(s[1..], p);
    }
  }

  /** The index of the last `c` in `s`, or -1 when there is none
      (`str.rfind`). */
  function LastIndexOf(s: string, c: char): (r: int)
    ensures -1 <= r < |s|
    ensures 0 <= r ==> s[r] == c
    ensures forall j :: r < j < |s| ==> s[j] != c
  {
    if |s| == 0 then -1
    else if s[|s| - 1] == c then |s| - 1
    else LastIndexOf(s[..|s| - 1], c)
  }

  /** Every character of `s` is a dot (vacuously so for ""). */
  predicate AllDots(s: string) {
    forall j :: 0 <= j < |s| ==> s[j] == '.'
  }

  /** `os.path.splitext(name)[0]` for a base name: everything before the last
      dot, unless only dots precede that dot (".json" and "..x" have no
      extension). */
  function SplitExtRoot(name: string): (root: string)
    ensures IsPrefix(root, name)
    ensures root != name ==>
              && |root| < |name|
              && name[|root|] == '.'
              && !AllDots(root)
              && forall j :: |root| < j < |name| ==> name[j] != '.'
    ensures root == name ==>
              forall j :: 0 <= j < |name| && name[j] == '.' ==> AllDots(name[..j])
  {
    var d := LastIndexOf(name, '.');
    if 0 <= d && !AllDots(name[..d]) then name[..d] else name
  }

  /** The name `<id>.json` is split back into `id`, as long as `id` holds some
      character other than a dot. */
  lemma SplitExtRootJson(id: string)
    requires !AllDots(id)
    ensures SplitExtRoot(id + ".json") == id
  {
    var name := id + ".json";
    assert name[|id|] == '.';
    assert forall j :: |id| < j < |name| ==> name[j] != '.';
    assert name[..|id|] == id;
  }
}
